=== FILE: README.md ===
# Post, like and comment core of an Instagram-style backend, in Dafny

This project models the service layer of a small social-feed backend (Java, Spring Boot).
Users create image posts, comment on them, and like or unlike them. A feed lists posts
newest first, and each post carries three values derived at read time: its like count,
its comment count, and whether the viewer likes it.

The model is functional. The storage collaborator is an immutable `Store` with three parts:

- a map from post id to post;
- a set of like keys `(userId, postId)`, since a like row is nothing but its composite key;
- a map from comment id to comment.

Each service method takes a store and its arguments and returns a `Result`: the value, or an
`Error`. What the value holds depends on the method:

- the mutating operations (createPost, likePost, unlikePost, addComment) return the new store
  and the view;
- deletePost, which returns nothing in the source, returns only the new store;
- getPost returns only the view;
- getFeed and getComments return only the page.

The repository calls become plain
queries: `findById`/`existsById` are map or set membership, `countByPostId` is the size of
a filtered set or map, `save` is insertion and `delete` is removal. Every check in the
service comes before its first write. So a failed call returns no store: the store after it
is the store before it. The two listing reads are methods. They enumerate a table
newest first, and their result is stated as "some newest-first listing", because the
source does not fix the order of equal timestamps.

Modules:

- `Wrappers`: `Option` and `Result`.
- `Domain`: entities, the store, and the error kinds and messages.
- `Requests`: the create-post request and its validation.
- `Responses`: the view records.
- `Paging`: page requests and page windows.
- `Ordering`: newest-first listings.
- `Engagement`: the derived counts.
- `PostService` and `CommentService`: the services.
- `Scenarios` and `CommentScenarios`: end-to-end walks through the services.

Modelling choices:

- deletePost removes only the post row: it calls `postRepository.delete(post)` and
  nothing else, and the cascade mapping of the entities is not part of this model. So the
  model does not claim that likes and comments of a deleted post are removed. They stay in
  the store as orphans that no read can reach. Because of this, a fresh post id must also be
  unused by any like or comment.
- Feed and comment order is by `createdAt` only, as the repository queries order it; equal
  timestamps come in an unspecified order (`NewestFirstUnique` shows the listing is unique
  when no two timestamps are equal; `TiesLeaveOrderFree` shows both orders of a tie are allowed).
  Pages are disjoint and contiguous only when cut from one listing. Each getFeed or
  getComments call picks its own listing, as each of the source's queries does, so with tied
  timestamps two calls may repeat or skip a tied row across their pages. When no two
  timestamps are equal, `FeedPagesAgreeAcrossCalls` and `CommentPagesAgreeAcrossCalls` show
  that separate calls agree page for page.
- A rejected create-post body is a bean-validation failure (`Invalid`), raised before the
  service runs and separate from the service's three `ApiException` kinds.
- Lengths are Java's `String.length()`: a string here is a sequence of Unicode code points,
  and `Requests.Utf16Length` counts one UTF-16 code unit per char up to U+FFFF and two above.

## Model

| member | source | states |
|---|---|---|
| Requests.BlankIffNoVisibleChar | src/main/java/com/example/instagram/dto/request/CreatePostRequest.java:14 | @NotBlank's trim-based test: a string is blank exactly when every char is at or below U+0020 |
| Requests.ViolationsMeaning | src/main/java/com/example/instagram/dto/request/CreatePostRequest.java:14-16 | "Image URL is required" is violated iff imageUrl is null or blank; "must not exceed 500 characters" iff it is present and longer than 500 UTF-16 code units |
| Requests.Message | src/main/java/com/example/instagram/dto/request/CreatePostRequest.java:14-15 | "Image URL is required" is the message of the missing-or-blank violation and only of it; "Image URL must not exceed 500 characters" is that of the too-long violation and only of it |
| Requests.ReportedMessages | src/main/java/com/example/instagram/dto/request/CreatePostRequest.java:14-15 | a rejected request reports "Image URL is required" iff imageUrl is null or blank, and the length message iff it exceeds 500 UTF-16 code units |
| Requests.ValidIff | src/main/java/com/example/instagram/dto/request/CreatePostRequest.java:14-18 | a request is accepted iff imageUrl is present, has a visible char and is at most 500 UTF-16 code units long |
| Requests.BoundIsInclusive | src/main/java/com/example/instagram/dto/request/CreatePostRequest.java:15 | a non-blank imageUrl of exactly 500 UTF-16 code units is accepted |
| Requests.SupplementaryCharCountsTwice | src/main/java/com/example/instagram/dto/request/CreatePostRequest.java:15 | a char above U+FFFF counts as two: 499 'a's and one emoji are 501 code units and rejected as too long |
| Requests.CaptionUnconstrained | src/main/java/com/example/instagram/dto/request/CreatePostRequest.java:18 | changing the caption, to any value or to null, never changes the verdict |
| Responses.SummaryOf | src/main/java/com/example/instagram/dto/response/AuthorSummary.java:19-25 | the author summary copies the user's id, username and avatarUrl, each to its own field, so the user reads back from it |
| Responses.PostResponseFrom | src/main/java/com/example/instagram/dto/response/PostResponse.java:27-38 | the post (id, imageUrl, caption, createdAt, author summary) reads back from the view unchanged; the three derived values are the passed-in ones |
| Responses.PostResponseInjective | src/main/java/com/example/instagram/dto/response/PostResponse.java:27-38 | equal views come only from equal posts, authors and derived values |
| Responses.CommentResponseFrom | src/main/java/com/example/instagram/dto/response/CommentResponse.java:23-30 | the comment view carries the comment's id, text and createdAt and the author's summary |
| Paging.PageRequestOf | src/main/java/com/example/instagram/service/PostService.java:44 | building a page request succeeds iff page >= 0 and size >= 1 |
| Paging.TotalPages | src/main/java/com/example/instagram/dto/response/PageResponse.java:21-27 | totalPages is the least number of pages of `size` that hold all `n` items |
| Paging.Window | src/main/java/com/example/instagram/service/CommentService.java:46-47 | page p shows at most `size` items, positions p*size onward of the ordered result, and nothing beyond its end |
| Paging.PagesArePrefix | src/main/java/com/example/instagram/service/CommentService.java:46-47 | reading pages 0..k-1 of one listing in order gives exactly its first k*size items: pages of one listing are disjoint and contiguous |
| Paging.PagesCoverAll | src/main/java/com/example/instagram/dto/response/PageResponse.java:21-27 | reading all totalPages pages of one listing in order gives back the whole listing |
| Ordering.NewestFirst | src/main/java/com/example/instagram/repository/CommentRepository.java:12 | the order-by-createdAt-desc query: lists every key of the table exactly once with non-increasing createdAt |
| Ordering.NewestRowComesFirst | src/main/java/com/example/instagram/service/PostService.java:44 | a row strictly newer than all others heads every newest-first listing |
| Ordering.NewestFirstUnique | src/main/java/com/example/instagram/service/PostService.java:44 | when no two rows share a timestamp, there is only one newest-first listing |
| Ordering.TiesLeaveOrderFree | src/main/java/com/example/instagram/repository/CommentRepository.java:12 | ordering by createdAt alone leaves ties free: both orders of two equally old rows are newest-first listings |
| Engagement.LikesCountIsLikers | src/main/java/com/example/instagram/repository/LikeRepository.java:13 | the like count of a post equals the number of distinct users who like it |
| Engagement.LikesCountAfterAdd | src/main/java/com/example/instagram/repository/LikeRepository.java:13 | saving a new like raises its post's count by exactly one and changes no other post's likes |
| Engagement.LikesCountAfterRemove | src/main/java/com/example/instagram/repository/LikeRepository.java:13 | deleting a like lowers its post's count by exactly one and changes no other post's likes |
| Engagement.CommentsAfterAdd | src/main/java/com/example/instagram/repository/CommentRepository.java:14 | saving a comment under a new id adds it to its post's comments only, raising that count by one |
| PostService.CreatePost | src/main/java/com/example/instagram/service/PostService.java:32-41 | an invalid request fails with its violations; a valid one inserts exactly the post by the actor and shows it with 0 likes, 0 comments, not liked |
| PostService.CreateThenGet | src/main/java/com/example/instagram/service/PostService.java:32-67 | a new post reads back through getPost, for any viewer, exactly as createPost showed it |
| PostService.NewestPostHeadsFeed | src/main/java/com/example/instagram/service/PostService.java:32-56 | a post created later than all others heads the feed listing |
| PostService.GetPost | src/main/java/com/example/instagram/service/PostService.java:58-67 | NotFound iff the id is absent; otherwise the stored post, likesCount = likes with that postId, commentsCount = comments with that postId, isLiked iff (viewer, post) is a like key |
| PostService.DeletePost | src/main/java/com/example/instagram/service/PostService.java:69-79 | NotFound when absent whoever asks, then Forbidden for a non-author; success iff present and owned, removing that post id only |
| PostService.DeleteThenGet | src/main/java/com/example/instagram/service/PostService.java:58-79 | after a delete the post is NotFound for every viewer and every other post reads exactly as before |
| PostService.OnlyAuthorDeletes | src/main/java/com/example/instagram/service/PostService.java:74-76 | a non-author's delete is Forbidden; a failed call carries no store, so the store is unchanged and the post still reads |
| PostService.LikePost | src/main/java/com/example/instagram/service/PostService.java:81-104 | NotFound when absent, Conflict when already liked, success iff neither; adds exactly the key (actor, post), returns that postId and the previous count + 1; other posts' counts unchanged |
| PostService.UnlikePost | src/main/java/com/example/instagram/service/PostService.java:106-124 | "Post not found" when absent, "Like not found" when not liked, success iff neither; removes exactly that key, returns the previous count - 1; other posts' counts unchanged |
| PostService.LikeThenUnlike | src/main/java/com/example/instagram/service/PostService.java:81-124 | like then unlike by the same actor restores the store and reports the original count |
| PostService.UnlikeThenLike | src/main/java/com/example/instagram/service/PostService.java:81-124 | unlike then like by the same actor restores the store and reports the original count |
| PostService.SecondLikeConflicts | src/main/java/com/example/instagram/service/PostService.java:87-89 | a second like is a Conflict and the count stays at what the first like returned |
| PostService.LikeShowsInGetPost | src/main/java/com/example/instagram/service/PostService.java:58-104 | after a like, getPost shows one more like and the actor now likes the post (and did not before) |
| PostService.FeedPage | src/main/java/com/example/instagram/service/PostService.java:46-55 | a feed page shows the page window of a newest-first listing, each post with its derived values, in non-increasing createdAt, with page index and total pages |
| PostService.GetFeed | src/main/java/com/example/instagram/service/PostService.java:43-56 | an illegal page request fails; otherwise the result is the requested page of some newest-first listing of all posts |
| PostService.FeedEntriesMatchGetPost | src/main/java/com/example/instagram/service/PostService.java:47-51 | every feed entry equals what getPost returns for that post and viewer |
| PostService.FeedPagesListEveryPostOnce | src/main/java/com/example/instagram/service/PostService.java:43-56 | reading all feed pages of one listing in order shows every post exactly once |
| PostService.FeedPagesAgreeAcrossCalls | src/main/java/com/example/instagram/service/PostService.java:43-56 | when no two posts share a createdAt, any two listings give the same feed page, so separate calls agree |
| CommentService.AddComment | src/main/java/com/example/instagram/service/CommentService.java:27-39 | NotFound when the post is absent; otherwise inserts exactly one comment (that postId, the actor, the text), that post's count rises by 1, others unchanged, and the view is the stored text with the actor's summary |
| CommentService.CommentsPage | src/main/java/com/example/instagram/service/CommentService.java:46-53 | a comment page shows the page window of a newest-first listing of the post's comments, each with its stored author, in non-increasing createdAt |
| CommentService.GetComments | src/main/java/com/example/instagram/service/CommentService.java:41-54 | NotFound when the post is absent (checked before the page request), then the illegal-request failure, otherwise the requested page of a newest-first listing of that post's comments; it returns no store |
| CommentService.PageShowsOnlyThePostsComments | src/main/java/com/example/instagram/service/CommentService.java:46-50 | every comment on a page is a stored comment whose postId is the requested post |
| CommentService.CommentPagesAddUpToCount | src/main/java/com/example/instagram/service/CommentService.java:41-54 | reading all comment pages of one listing gives commentsCount comments, each once |
| CommentService.CommentPagesAgreeAcrossCalls | src/main/java/com/example/instagram/service/CommentService.java:41-54 | when no two of the post's comments share a createdAt, any two listings give the same comment page, so separate calls agree |
| CommentService.AddedCommentIsListed | src/main/java/com/example/instagram/service/CommentService.java:27-54 | a comment just added appears in the post's comment listing |
| Scenarios.LikeUnlikeDelete | src/main/java/com/example/instagram/service/PostService.java:32-124 | for any valid request and fresh id: post, like (count 1, liked), second like Conflict, unlike (count 0), delete, then NotFound |
| CommentScenarios.TwoCommentsStored | src/main/java/com/example/instagram/service/CommentService.java:27-39 | for any valid request and fresh ids: post, then two comments succeed; the post's comments are exactly those two and commentsCount is 2 |
| CommentScenarios.TwoCommentsTwoPages | src/main/java/com/example/instagram/service/CommentService.java:27-54 | two comments on a new post give commentsCount 2; in pages of size 1 there are 2 pages, page 0 holding only the newer comment and page 1 only the older |
| CommentScenarios.OnePerPage | src/main/java/com/example/instagram/service/CommentService.java:46-53 | of two comments listed one per page, newest first, page 0 holds the newer and page 1 the older, out of 2 pages |

## Left out

- The controllers only route HTTP requests, set status codes and default `page`/`size`. They are not modelled. The one exception: the `@Valid` check on the create-post body is folded into `CreatePost`.
- Authentication is not modelled: password hashing, token issuance and the authentication manager are foreign calls. The actor is an explicit `User` argument.
- The mapping of errors to HTTP responses is not modelled, and neither is `ErrorResponse.of`, which reads the clock. The model returns the error itself. Its kind stands for both the HTTP status and the machine-readable code (`NOT_FOUND`, `FORBIDDEN`, `CONFLICT`), which are not modelled as separate values.
- The registration response is outside the post/like/comment core.
- Transactions and concurrency are not modelled. Each call is one sequential step. The check-then-insert race between `existsById` and `save` in likePost does not arise.
- Cascading removal of likes and comments on delete is not modelled. The code shows only `postRepository.delete`, and the entity mapping is not part of this model.
- Generated ids and `createdAt` timestamps are parameters. Freshness is a precondition: a new post id is used by no post, like or comment, and a new comment id by no comment.
- Spring Data's paging internals are not modelled. A page is a plain window of the ordered result. `totalPages = ceil(n/size)` and the two `IllegalArgumentException` messages of `PageRequest.of` are taken as the library's behaviour, not proved from source.
- Tie-breaking among equal `createdAt` values is not modelled; the source does not specify it.
- `long` counts are unbounded here; they would overflow only past 2^63 - 1 rows. The `int` parameters `page` and `size` are unbounded integers here.
- PostService.GetFeed: the page window is taken for any offset page*size. The source passes that offset to the JPA query as an `int`, so once page*size exceeds 2^31 - 1 the query fails (or, with older Spring Data versions, wraps), even on an empty table. The model returns an empty page instead. The library version is not part of this model, so neither outcome is modelled.
- CommentService.GetComments: the same holds for the comment query's offset page*size.
- The comment request body's own validation is not modelled: CreateCommentRequest.java is not part of this model, so the comment text is unconstrained.
- Strings are sequences of Unicode code points. `String.length()` is modelled by `Requests.Utf16Length` (a char above U+FFFF counts as two code units). Lone surrogates, normalisation and case are not modelled.
- `User` keeps only the fields the views read: id, username and avatarUrl.
- Unauthenticated viewers are not modelled. Every operation that depends on the viewer or changes the store takes the actor as a `User` argument; getComments takes none, as in the source. getPost, deletePost, likePost and unlikePost read the current user's id without a null check. getFeed reads it only for each post on the page, so an empty page never touches it.

=== FILE: comment_scenarios.dfy ===
/** An end-to-end walk through commenting and comment paging. */
module CommentScenarios {
  import opened Domain
  import opened Requests
  import opened Engagement
  import opened Paging
  import Ordering
  import opened PostService
  import opened CommentService
  import opened Scenarios

  /**
   * U1 posts B; U2 comments on it, then U3. Every call succeeds and B's
   * comments are exactly the two new ones, so its comment count is 2.
   */
  lemma TwoCommentsStored(s: Store, req: CreatePostRequest, b: Id, u1: User, u2: User, u3: User, c2: Id, c3: Id, t2: int, t3: int, now: int)
    requires FreshPostId(s, b) && IsValid(req)
    requires c2 != c3 && c2 !in s.comments && c3 !in s.comments
    ensures CreatePost(s, req, u1, b, now).Success?
    ensures
      var s1 := CreatePost(s, req, u1, b, now).value.0;
      && AddComment(s1, b, "nice", u2, c2, t2).Success?
      && var s2 := AddComment(s1, b, "nice", u2, c2, t2).value.0;
      && AddComment(s2, b, "great", u3, c3, t3).Success?
      && var s3 := AddComment(s2, b, "great", u3, c3, t3).value.0;
      && CommentsOn(s3.comments, b) == map[c2 := Comment(c2, b, u2, "nice", t2), c3 := Comment(c3, b, u3, "great", t3)]
      && CommentsCount(s3, b) == 2
  {
    Posted(s, req, b, u1, now);
    var s1 := CreatePost(s, req, u1, b, now).value.0;
    var k2 := Comment(c2, b, u2, "nice", t2);
    var k3 := Comment(c3, b, u3, "great", t3);
    var s2 := AddComment(s1, b, "nice", u2, c2, t2).value.0;
    assert CommentsOn(s2.comments, b) == map[c2 := k2] by {
      assert CommentsOn(s1.comments, b) == map[];
      CommentsAfterAdd(s1.comments, c2, k2);
    }
    var s3 := AddComment(s2, b, "great", u3, c3, t3).value.0;
    assert CommentsOn(s3.comments, b) == map[c2 := k2, c3 := k3] by {
      CommentsAfterAdd(s2.comments, c3, k3);
    }
  }

  /**
   * U1 posts B; U2 comments at t2, then U3 at a later t3. B then has two
   * comments; listed one per page, they take two pages, page 0 holding only
   * U3's newer comment and page 1 only U2's.
   */
  lemma TwoCommentsTwoPages(s: Store, req: CreatePostRequest, b: Id, u1: User, u2: User, u3: User, c2: Id, c3: Id, t2: int, t3: int, now: int)
    requires FreshPostId(s, b) && IsValid(req)
    requires c2 != c3 && c2 !in s.comments && c3 !in s.comments
    requires t2 < t3
    ensures CreatePost(s, req, u1, b, now).Success?
    ensures
      var s1 := CreatePost(s, req, u1, b, now).value.0;
      && AddComment(s1, b, "nice", u2, c2, t2).Success?
      && var s2 := AddComment(s1, b, "nice", u2, c2, t2).value.0;
      && AddComment(s2, b, "great", u3, c3, t3).Success?
      && var s3 := AddComment(s2, b, "great", u3, c3, t3).value.0;
      && CommentsCount(s3, b) == 2
      && forall ordered :: Ordering.IsNewestFirst(ordered, CommentsOn(s3.comments, b), CommentCreatedAt) ==>
           var page0 := CommentsPage(CommentsOn(s3.comments, b), ordered, PageRequest(0, 1));
           var page1 := CommentsPage(CommentsOn(s3.comments, b), ordered, PageRequest(1, 1));
           && page0.totalPages == 2
           && |page0.content| == 1 && page0.content[0].id == c3 && page0.content[0].text == "great"
           && |page1.content| == 1 && page1.content[0].id == c2 && page1.content[0].text == "nice"
  {
    TwoCommentsStored(s, req, b, u1, u2, u3, c2, c3, t2, t3, now);
    var s1 := CreatePost(s, req, u1, b, now).value.0;
    var s2 := AddComment(s1, b, "nice", u2, c2, t2).value.0;
    var s3 := AddComment(s2, b, "great", u3, c3, t3).value.0;
    var m := CommentsOn(s3.comments, b);
    forall ordered | Ordering.IsNewestFirst(ordered, m, CommentCreatedAt)
      ensures
        var page0 := CommentsPage(m, ordered, PageRequest(0, 1));
        var page1 := CommentsPage(m, ordered, PageRequest(1, 1));
        && page0.totalPages == 2
        && |page0.content| == 1 && page0.content[0].id == c3 && page0.content[0].text == "great"
        && |page1.content| == 1 && page1.content[0].id == c2 && page1.content[0].text == "nice"
    {
      OnePerPage(m, ordered, Comment(c2, b, u2, "nice", t2), Comment(c3, b, u3, "great", t3));
    }
  }

  /** Two comments on one post, listed newest first one per page: the newer fills page 0, the older page 1. */
  lemma OnePerPage(m: map<Id, Comment>, ordered: seq<Id>, older: Comment, newer: Comment)
    requires older.id != newer.id && m == map[older.id := older, newer.id := newer]
    requires older.createdAt < newer.createdAt
    requires Ordering.IsNewestFirst(ordered, m, CommentCreatedAt)
    ensures
      var page0 := CommentsPage(m, ordered, PageRequest(0, 1));
      var page1 := CommentsPage(m, ordered, PageRequest(1, 1));
      && page0.totalPages == 2
      && |page0.content| == 1 && page0.content[0].id == newer.id && page0.content[0].text == newer.text
      && |page1.content| == 1 && page1.content[0].id == older.id && page1.content[0].text == older.text
  {
    Ordering.NewestFirstLength(ordered, m, CommentCreatedAt);
    assert |m| == |m.Keys| == 2;
    Ordering.NewestRowComesFirst(ordered, m, CommentCreatedAt, newer.id);
    assert ordered[1] in m && ordered[1] != ordered[0];
    assert ordered[1] == older.id;
    assert Window(ordered, 0, 1) == [newer.id];
    assert Window(ordered, 1, 1) == [older.id];
  }
}

=== FILE: comment_service.dfy ===
/**
 * CommentService: attach a comment to an existing post, and list a post's
 * comments newest first, one page at a time.
 */
module CommentService {
  import opened Wrappers
  import opened Domain
  import opened Responses
  import opened Paging
  import opened Ordering
  import opened Engagement

  /** The order key of the comment query. */
  function CommentCreatedAt(c: Comment): int {
    c.createdAt
  }

  /**
   * addComment: NotFound for an unknown post; otherwise one comment by
   * `author` with `text`, stamped `now`, is stored under the generated id and
   * shown with its author's summary.
   */
  function AddComment(s: Store, postId: Id, text: string, author: User, id: Id, now: int)
    : (r: Result<(Store, CommentResponse), Error>)
    requires id !in s.comments
    ensures postId !in s.posts ==> r == Failure(PostNotFound)
    ensures postId in s.posts ==> r.Success?
    ensures r.Success? ==>
      && r.value.0.comments == s.comments[id := Comment(id, postId, author, text, now)]
      && r.value.0.posts == s.posts
      && r.value.0.likes == s.likes
    ensures r.Success? ==> r.value.1 == CommentResponse(id, text, SummaryOf(author), now)
    ensures r.Success? ==>
      && CommentsCount(r.value.0, postId) == CommentsCount(s, postId) + 1
      && (forall q :: q != postId ==> CommentsCount(r.value.0, q) == CommentsCount(s, q))
    ensures r.Success? && Valid(s) ==> Valid(r.value.0)
  {
    if postId !in s.posts then
      Failure(PostNotFound)
    else
      var comment := Comment(id, postId, author, text, now);
      CommentsAfterAdd(s.comments, id, comment);
      Success((s.(comments := s.comments[id := comment]), CommentResponseFrom(comment, author)))
  }

  /** The comment page that a newest-first listing of a post's comments yields for `req`. */
  function CommentsPage(comments: map<Id, Comment>, ordered: seq<Id>, req: PageRequest): (r: Page<CommentResponse>)
    requires req.size >= 1
    requires IsNewestFirst(ordered, comments, CommentCreatedAt)
    ensures r.page == req.page && r.totalPages == TotalPages(|comments|, req.size)
    ensures |r.content| == |Window(ordered, req.page, req.size)|
    ensures forall i :: 0 <= i < |r.content| ==>
      var c := comments[Window(ordered, req.page, req.size)[i]];
      r.content[i] == CommentResponseFrom(c, c.author)
    ensures forall i, j :: 0 <= i < j < |r.content| ==> r.content[i].createdAt >= r.content[j].createdAt
  {
    NewestFirstLength(ordered, comments, CommentCreatedAt);
    var w := Window(ordered, req.page, req.size);
    WindowIsNewestFirst(ordered, comments, CommentCreatedAt, req.page, req.size);
    var items := seq(|w|, i requires 0 <= i < |w| => CommentResponseFrom(comments[w[i]], comments[w[i]].author));
    Page(items, req.page, TotalPages(|ordered|, req.size))
  }

  /**
   * getComments: NotFound for an unknown post (checked before the page
   * request); an illegal page request fails; otherwise the requested page of
   * the post's comments newest first (equal timestamps in some order).
   */
  method GetComments(s: Store, postId: Id, page: int, size: int) returns (r: Result<Page<CommentResponse>, Error>)
    ensures postId !in s.posts ==> r == Failure(PostNotFound)
    ensures postId in s.posts && PageRequestOf(page, size).Failure? ==> r == Failure(PageRequestOf(page, size).error)
    ensures postId in s.posts && PageRequestOf(page, size).Success? ==>
      exists ordered :: IsNewestFirst(ordered, CommentsOn(s.comments, postId), CommentCreatedAt)
        && r == Success(CommentsPage(CommentsOn(s.comments, postId), ordered, PageRequestOf(page, size).value))
  {
    if postId !in s.posts {
      return Failure(PostNotFound);
    }
    var req := PageRequestOf(page, size);
    if req.Failure? {
      return Failure(req.error);
    }
    var ordered := NewestFirst(CommentsOn(s.comments, postId), CommentCreatedAt);
    r := Success(CommentsPage(CommentsOn(s.comments, postId), ordered, req.value));
  }

  // Properties relating several calls.

  /** Every comment a page shows is a stored comment on the requested post. */
  lemma PageShowsOnlyThePostsComments(s: Store, postId: Id, ordered: seq<Id>, req: PageRequest)
    requires req.size >= 1
    requires IsNewestFirst(ordered, CommentsOn(s.comments, postId), CommentCreatedAt)
    ensures forall i :: 0 <= i < |Window(ordered, req.page, req.size)| ==>
      var id := Window(ordered, req.page, req.size)[i];
      && id in s.comments && s.comments[id].postId == postId
      && CommentsPage(CommentsOn(s.comments, postId), ordered, req).content[i]
         == CommentResponseFrom(s.comments[id], s.comments[id].author)
  {
  }

  /** Reading every comment page in order shows each of the post's comments once: commentsCount items in all. */
  lemma CommentPagesAddUpToCount(s: Store, postId: Id, ordered: seq<Id>, size: nat)
    requires size >= 1
    requires IsNewestFirst(ordered, CommentsOn(s.comments, postId), CommentCreatedAt)
    ensures Pages(ordered, size, TotalPages(CommentsCount(s, postId), size)) == ordered
    ensures |ordered| == CommentsCount(s, postId)
  {
    NewestFirstLength(ordered, CommentsOn(s.comments, postId), CommentCreatedAt);
    PagesCoverAll(ordered, size);
  }

  /**
   * When no two comments of the post share a createdAt, separate getComments
   * calls cut their pages from the same listing, so they agree page for page.
   */
  lemma CommentPagesAgreeAcrossCalls(comments: map<Id, Comment>, a: seq<Id>, b: seq<Id>, req: PageRequest)
    requires req.size >= 1
    requires IsNewestFirst(a, comments, CommentCreatedAt) && IsNewestFirst(b, comments, CommentCreatedAt)
    requires forall x, y :: x in comments && y in comments && x != y ==> comments[x].createdAt != comments[y].createdAt
    ensures CommentsPage(comments, a, req) == CommentsPage(comments, b, req)
  {
    NewestFirstUnique(a, b, comments, CommentCreatedAt);
  }

  /** A comment just added is listed by getComments: it is among the post's comments afterwards. */
  lemma AddedCommentIsListed(s: Store, postId: Id, text: string, author: User, id: Id, now: int, ordered: seq<Id>)
    requires id !in s.comments
    requires AddComment(s, postId, text, author, id, now).Success?
    requires IsNewestFirst(ordered, CommentsOn(AddComment(s, postId, text, author, id, now).value.0.comments, postId), CommentCreatedAt)
    ensures id in ordered
  {
    var s' := AddComment(s, postId, text, author, id, now).value.0;
    assert id in CommentsOn(s'.comments, postId);
  }
}

=== FILE: domain.dfy ===
/**
 * Entities of the post/like/comment core and the abstract store that the
 * repositories give access to.
 */
module Domain {
  import opened Wrappers
  import Requests

  /** Entity ids are generated strings (UUIDs in the storage layer). */
  type Id = string

  /** The authenticated caller, or the stored author of a post or comment. */
  datatype User = User(id: Id, username: string, avatarUrl: Option<string>)

  /** A post; `createdAt` is the storage timestamp, an instant on an integer clock. */
  datatype Post = Post(id: Id, author: User, imageUrl: string, caption: Option<string>, createdAt: int)

  /** The composite primary key of a like: one like per (user, post) pair. */
  datatype LikeId = LikeId(userId: Id, postId: Id)

  datatype Comment = Comment(id: Id, postId: Id, author: User, text: string, createdAt: int)

  /**
   * The storage collaborator's state: the post table keyed by id, the like
   * table (its rows are exactly their keys) and the comment table keyed by id.
   */
  datatype Store = Store(posts: map<Id, Post>, likes: set<LikeId>, comments: map<Id, Comment>)

  /** Each row is stored under its own id. */
  predicate Valid(s: Store) {
    && (forall id :: id in s.posts ==> s.posts[id].id == id)
    && (forall id :: id in s.comments ==> s.comments[id].id == id)
  }

  /** The status of an ApiException. */
  datatype ErrorKind = NotFound | Forbidden | Conflict

  /** Everything a core call can fail with. */
  datatype Error =
    /** An ApiException thrown by a service. */
    | Api(kind: ErrorKind, message: string)
    /** A request rejected by bean validation, with the set of violated constraints (their messages are `Requests.Messages`). */
    | Invalid(violations: set<Requests.Violation>)
    /** An IllegalArgumentException from building a page request. */
    | IllegalArgument(message: string)

  const PostNotFound: Error := Api(NotFound, "Post not found")
  const LikeNotFound: Error := Api(NotFound, "Like not found")
  const AlreadyLiked: Error := Api(Conflict, "Post already liked")
  const NotYourPost: Error := Api(Forbidden, "You can only delete your own posts")
}

=== FILE: engagement.dfy ===
/**
 * The derived engagement values, recomputed from the store on every read:
 * the repositories' countByPostId and existsById queries.
 */
module Engagement {
  import opened Domain

  /** The like rows of one post. */
  function LikesOf(likes: set<LikeId>, postId: Id): set<LikeId> {
    set k | k in likes && k.postId == postId
  }

  /** likeRepository.countByPostId. */
  function LikesCount(s: Store, postId: Id): nat {
    |LikesOf(s.likes, postId)|
  }

  /** The comment rows of one post. */
  function CommentsOn(comments: map<Id, Comment>, postId: Id): map<Id, Comment> {
    map id | id in comments && comments[id].postId == postId :: comments[id]
  }

  /** commentRepository.countByPostId. */
  function CommentsCount(s: Store, postId: Id): nat {
    |CommentsOn(s.comments, postId)|
  }

  /** likeRepository.existsById(new LikeId(userId, postId)). */
  predicate IsLiked(s: Store, userId: Id, postId: Id) {
    LikeId(userId, postId) in s.likes
  }

  /** The users who like a post. */
  function Likers(likes: set<LikeId>, postId: Id): set<Id> {
    set k | k in likes && k.postId == postId :: k.userId
  }

  /** Since the key holds the user, a post has exactly as many likes as users who like it. */
  lemma LikesCountIsLikers(likes: set<LikeId>, postId: Id)
    ensures |LikesOf(likes, postId)| == |Likers(likes, postId)|
  {
    var ls := LikesOf(likes, postId);
    var us := Likers(likes, postId);
    assert ls == set u | u in us :: LikeId(u, postId);
    CardOfInjectiveImage(us, postId);
  }

  lemma {:induction false} CardOfInjectiveImage(us: set<Id>, postId: Id)
    ensures |set u | u in us :: LikeId(u, postId)| == |us|
    decreases us
  {
    if us != {} {
      var u :| u in us;
      CardOfInjectiveImage(us - {u}, postId);
      assert (set v | v in us :: LikeId(v, postId)) == (set v | v in us - {u} :: LikeId(v, postId)) + {LikeId(u, postId)};
    }
  }

  /** Adding a new like raises its own post's count by one and leaves every other post's count alone. */
  lemma LikesCountAfterAdd(likes: set<LikeId>, key: LikeId)
    requires key !in likes
    ensures |LikesOf(likes + {key}, key.postId)| == |LikesOf(likes, key.postId)| + 1
    ensures forall p :: p != key.postId ==> LikesOf(likes + {key}, p) == LikesOf(likes, p)
  {
    assert LikesOf(likes + {key}, key.postId) == LikesOf(likes, key.postId) + {key};
  }

  /** Removing a like lowers its own post's count by one and leaves every other post's count alone. */
  lemma LikesCountAfterRemove(likes: set<LikeId>, key: LikeId)
    requires key in likes
    ensures |LikesOf(likes - {key}, key.postId)| == |LikesOf(likes, key.postId)| - 1
    ensures forall p :: p != key.postId ==> LikesOf(likes - {key}, p) == LikesOf(likes, p)
  {
    assert LikesOf(likes, key.postId) == LikesOf(likes - {key}, key.postId) + {key};
  }

  /** Storing a comment under a new id adds it to its own post's comments and to no other post's. */
  lemma CommentsAfterAdd(comments: map<Id, Comment>, id: Id, c: Comment)
    requires id !in comments
    ensures CommentsOn(comments[id := c], c.postId) == CommentsOn(comments, c.postId)[id := c]
    ensures |CommentsOn(comments[id := c], c.postId)| == |CommentsOn(comments, c.postId)| + 1
    ensures forall p :: p != c.postId ==> CommentsOn(comments[id := c], p) == CommentsOn(comments, p)
  {
    assert CommentsOn(comments[id := c], c.postId) == CommentsOn(comments, c.postId)[id := c];
  }
}

=== FILE: ordering.dfy ===
/**
 * Newest-first enumeration of a table: the order the repositories' "order by
 * createdAt desc" queries return. Rows with equal timestamps may come in any order.
 */
module Ordering {

  /** No key appears twice. */
  ghost predicate Distinct<K>(s: seq<K>) {
    forall i, j :: 0 <= i < j < |s| ==> s[i] != s[j]
  }

  /** Along `ordered`, the timestamps of the rows of `m` never increase. */
  ghost predicate NonIncreasing<K, V>(ordered: seq<K>, m: map<K, V>, time: V -> int)
    requires forall i :: 0 <= i < |ordered| ==> ordered[i] in m
  {
    forall i, j :: 0 <= i < j < |ordered| ==> time(m[ordered[i]]) >= time(m[ordered[j]])
  }

  /** `ordered` lists every key of `m` exactly once, newest row first. */
  ghost predicate IsNewestFirst<K, V>(ordered: seq<K>, m: map<K, V>, time: V -> int) {
    && (forall i :: 0 <= i < |ordered| ==> ordered[i] in m)
    && (forall k :: k in m ==> k in ordered)
    && Distinct(ordered)
    && NonIncreasing(ordered, m, time)
  }

  /** `k` is a row of `keys` that no other row of `keys` is newer than. */
  ghost predicate IsNewestOf<K, V>(k: K, keys: set<K>, m: map<K, V>, time: V -> int)
    requires keys <= m.Keys
  {
    k in keys && forall o :: o in keys ==> time(m[o]) <= time(m[k])
  }

  /** Every non-empty set of rows has a newest one. */
  lemma {:induction false} NewestExists<K, V>(keys: set<K>, m: map<K, V>, time: V -> int)
    requires keys != {} && keys <= m.Keys
    ensures exists k :: IsNewestOf(k, keys, m, time)
    decreases keys
  {
    var x :| x in keys;
    if keys != {x} {
      var rest := keys - {x};
      NewestExists(rest, m, time);
      var k :| IsNewestOf(k, rest, m, time);
      if time(m[x]) <= time(m[k]) {
        assert IsNewestOf(k, keys, m, time);
      } else {
        assert IsNewestOf(x, keys, m, time);
      }
    } else {
      assert IsNewestOf(x, keys, m, time);
    }
  }

  /** Lists the keys of `m` newest first, by repeatedly taking the newest row not yet listed. */
  method NewestFirst<K(==), V>(m: map<K, V>, time: V -> int) returns (ordered: seq<K>)
    ensures IsNewestFirst(ordered, m, time)
  {
    ordered := [];
    var rest := m.Keys;
    while rest != {}
      invariant rest <= m.Keys
      invariant forall i :: 0 <= i < |ordered| ==> ordered[i] in m && ordered[i] !in rest
      invariant forall k :: k in m ==> k in rest || k in ordered
      invariant Distinct(ordered)
      invariant NonIncreasing(ordered, m, time)
      invariant forall i, o :: 0 <= i < |ordered| && o in rest ==> time(m[o]) <= time(m[ordered[i]])
      decreases rest
    {
      NewestExists(rest, m, time);
      var k :| k in rest && forall o :: o in rest ==> time(m[o]) <= time(m[k]);
      ordered := ordered + [k];
      rest := rest - {k};
    }
  }

  /** A newest-first listing has one entry per row. */
  lemma NewestFirstLength<K, V>(ordered: seq<K>, m: map<K, V>, time: V -> int)
    requires IsNewestFirst(ordered, m, time)
    ensures |ordered| == |m|
  {
    DistinctCard(ordered);
    assert (set i | 0 <= i < |ordered| :: ordered[i]) == m.Keys;
    assert |m| == |m.Keys|;
  }

  /** A sequence without repeats has as many elements as its set. */
  lemma {:induction false} DistinctCard<K>(s: seq<K>)
    requires Distinct(s)
    ensures |set i | 0 <= i < |s| :: s[i]| == |s|
  {
    if |s| > 0 {
      var init := s[..|s| - 1];
      assert Distinct(init);
      DistinctCard(init);
      var a := set i | 0 <= i < |init| :: init[i];
      assert (set i | 0 <= i < |s| :: s[i]) == a + {s[|s| - 1]};
      assert s[|s| - 1] !in a;
    }
  }

  /** A row strictly newer than every other row heads any newest-first listing. */
  lemma NewestRowComesFirst<K, V>(ordered: seq<K>, m: map<K, V>, time: V -> int, k: K)
    requires IsNewestFirst(ordered, m, time)
    requires k in m && forall o :: o in m && o != k ==> time(m[o]) < time(m[k])
    ensures |ordered| > 0 && ordered[0] == k
  {
    assert k in ordered;
    var j :| 0 <= j < |ordered| && ordered[j] == k;
    assert time(m[ordered[0]]) >= time(m[ordered[j]]);
  }

  /** Dropping the head of a newest-first listing lists the remaining rows newest first. */
  lemma TailIsNewestFirst<K, V>(a: seq<K>, m: map<K, V>, time: V -> int)
    requires IsNewestFirst(a, m, time) && |a| > 0
    ensures IsNewestFirst(a[1..], m - {a[0]}, time)
  {
    var m' := m - {a[0]};
    forall k | k in m' ensures k in a[1..] {
      var i :| 0 <= i < |a| && a[i] == k;
      assert i != 0;
      assert a[1..][i - 1] == k;
    }
  }

  /** When no two rows share a timestamp, every newest-first listing starts with the same row. */
  lemma HeadIsUnique<K, V>(a: seq<K>, b: seq<K>, m: map<K, V>, time: V -> int)
    requires IsNewestFirst(a, m, time) && IsNewestFirst(b, m, time) && |a| > 0 && |b| > 0
    requires forall x, y :: x in m && y in m && x != y ==> time(m[x]) != time(m[y])
    ensures a[0] == b[0]
  {
    assert b[0] in a;
    var i :| 0 <= i < |a| && a[i] == b[0];
    assert a[0] in b;
    var j :| 0 <= j < |b| && b[j] == a[0];
    assert time(m[a[0]]) >= time(m[a[i]]);
    assert time(m[b[0]]) >= time(m[b[j]]);
  }

  /** When no two rows share a timestamp, the newest-first listing is unique. */
  lemma {:induction false} NewestFirstUnique<K, V>(a: seq<K>, b: seq<K>, m: map<K, V>, time: V -> int)
    requires IsNewestFirst(a, m, time) && IsNewestFirst(b, m, time)
    requires forall x, y :: x in m && y in m && x != y ==> time(m[x]) != time(m[y])
    ensures a == b
    decreases |a|
  {
    NewestFirstLength(a, m, time);
    NewestFirstLength(b, m, time);
    if |a| > 0 {
      HeadIsUnique(a, b, m, time);
      TailIsNewestFirst(a, m, time);
      TailIsNewestFirst(b, m, time);
      NewestFirstUnique(a[1..], b[1..], m - {a[0]}, time);
      assert a == [a[0]] + a[1..] && b == [b[0]] + b[1..];
    }
  }

  /** With a tie, the order is free: both orders of two rows of equal timestamp are newest-first listings. */
  lemma TiesLeaveOrderFree()
    ensures IsNewestFirst([1, 2], map[1 := 0, 2 := 0], (t: int) => t)
    ensures IsNewestFirst([2, 1], map[1 := 0, 2 := 0], (t: int) => t)
  {
  }
}

=== FILE: paging.dfy ===
/**
 * Page requests and the slice of an ordered result that one page shows.
 */
module Paging {
  import opened Wrappers
  import opened Domain
  import opened Ordering

  /** A validated page request: a page index and a positive page size. */
  datatype PageRequest = PageRequest(page: nat, size: nat)

  /** One page of an ordered result: its items, its index and the number of pages. */
  datatype Page<T> = Page(content: seq<T>, page: nat, totalPages: nat)

  /** PageRequest.of: a negative index or a size below one is an illegal argument. */
  function PageRequestOf(page: int, size: int): (r: Result<PageRequest, Error>)
    ensures r.Success? <==> page >= 0 && size >= 1
    ensures r.Success? ==> r.value.page == page && r.value.size == size && r.value.size >= 1
  {
    if page < 0 then Failure(IllegalArgument("Page index must not be less than zero"))
    else if size < 1 then Failure(IllegalArgument("Page size must not be less than one"))
    else Success(PageRequest(page, size))
  }

  function Min(a: int, b: int): int {
    if a <= b then a else b
  }

  /** The number of pages of `size` items needed for `n` items. */
  function TotalPages(n: nat, size: nat): (t: nat)
    requires size >= 1
    ensures t * size >= n
    ensures t > 0 ==> (t - 1) * size < n
  {
    (n + size - 1) / size
  }

  /** The items page `page` shows: positions page*size up to (page+1)*size of `all`, clipped to its end. */
  function Window<T>(all: seq<T>, page: nat, size: nat): (w: seq<T>)
    requires size >= 1
    ensures |w| <= size
    ensures page * size >= |all| ==> |w| == 0
    ensures page * size < |all| ==> |w| == Min(size, |all| - page * size)
    ensures forall i :: 0 <= i < |w| ==> w[i] == all[page * size + i]
  {
    var start := page * size;
    if start >= |all| then [] else all[start..Min(start + size, |all|)]
  }

  /** Pages 0 to k-1 read one after another. */
  function Pages<T>(all: seq<T>, size: nat, k: nat): seq<T>
    requires size >= 1
  {
    if k == 0 then [] else Pages(all, size, k - 1) + Window(all, k - 1, size)
  }

  /** Reading the first k pages in order gives the first k*size items: pages are contiguous and disjoint. */
  lemma {:induction false} PagesArePrefix<T>(all: seq<T>, size: nat, k: nat)
    requires size >= 1
    ensures Pages(all, size, k) == all[..Min(k * size, |all|)]
  {
    if k > 0 {
      PagesArePrefix(all, size, k - 1);
      NextPageStart(k - 1, size);
      WindowExtendsPrefix(all, k - 1, size);
    }
  }

  lemma NextPageStart(page: nat, size: nat)
    ensures (page + 1) * size == page * size + size
  {
  }

  /** The first `page` pages followed by page `page` are the first page+1 pages' items. */
  lemma WindowExtendsPrefix<T>(all: seq<T>, page: nat, size: nat)
    requires size >= 1
    ensures all[..Min(page * size, |all|)] + Window(all, page, size) == all[..Min(page * size + size, |all|)]
  {
    var start := page * size;
    if start < |all| {
      assert all[..start] + all[start..Min(start + size, |all|)] == all[..Min(start + size, |all|)];
    }
  }

  /** Reading every page in order gives back the whole result, so the page sizes add up to its length. */
  lemma PagesCoverAll<T>(all: seq<T>, size: nat)
    requires size >= 1
    ensures Pages(all, size, TotalPages(|all|, size)) == all
  {
    PagesArePrefix(all, size, TotalPages(|all|, size));
  }

  /** The rows one page shows come from the listing and keep its newest-first order. */
  lemma WindowIsNewestFirst<K, V>(ordered: seq<K>, m: map<K, V>, time: V -> int, page: nat, size: nat)
    requires size >= 1
    requires IsNewestFirst(ordered, m, time)
    ensures forall i :: 0 <= i < |Window(ordered, page, size)| ==> Window(ordered, page, size)[i] in m
    ensures forall i, j :: 0 <= i < j < |Window(ordered, page, size)| ==>
      time(m[Window(ordered, page, size)[i]]) >= time(m[Window(ordered, page, size)[j]])
  {
    var start := page * size;
    if start < |ordered| {
      SliceIsNewestFirst(ordered, m, time, start, Min(start + size, |ordered|));
    }
  }

  /** A slice of a newest-first listing holds rows of the table, still newest first. */
  lemma SliceIsNewestFirst<K, V>(ordered: seq<K>, m: map<K, V>, time: V -> int, lo: nat, hi: nat)
    requires IsNewestFirst(ordered, m, time)
    requires lo <= hi <= |ordered|
    ensures forall i :: 0 <= i < hi - lo ==> ordered[lo..hi][i] in m
    ensures forall i, j :: 0 <= i < j < hi - lo ==> time(m[ordered[lo..hi][i]]) >= time(m[ordered[lo..hi][j]])
  {
    var w := ordered[lo..hi];
    forall i, j | 0 <= i < j < hi - lo
      ensures time(m[w[i]]) >= time(m[w[j]])
    {
      assert w[i] == ordered[lo + i] && w[j] == ordered[lo + j];
    }
  }
}

=== FILE: post_service.dfy ===
/**
 * PostService: create, read, delete, like and unlike posts as transitions of
 * the store. A call that fails returns no store: every check comes before the
 * first write, so the store after a failed call is the store before it.
 */
module PostService {
  import opened Wrappers
  import opened Domain
  import opened Requests
  import opened Responses
  import opened Paging
  import opened Ordering
  import opened Engagement

  /** A generated post id no post, like or comment refers to yet. */
  predicate FreshPostId(s: Store, id: Id) {
    id !in s.posts && LikesOf(s.likes, id) == {} && CommentsOn(s.comments, id) == map[]
  }

  /** The order key of the feed query. */
  function PostCreatedAt(p: Post): int {
    p.createdAt
  }

  /** A stored post as `viewer` sees it, with its derived values recomputed from `s`. */
  function ViewOf(s: Store, post: Post, viewer: User): PostResponse {
    PostResponseFrom(post, post.author, LikesCount(s, post.id), CommentsCount(s, post.id), IsLiked(s, viewer.id, post.id))
  }

  /**
   * createPost, behind the request validation its caller applies: an invalid
   * request is rejected with the violated constraints; a valid one stores a
   * post by `author` stamped `now` and shows it with no likes or comments.
   */
  function CreatePost(s: Store, req: CreatePostRequest, author: User, id: Id, now: int)
    : (r: Result<(Store, PostResponse), Error>)
    requires FreshPostId(s, id)
    ensures !IsValid(req) ==> r == Failure(Invalid(Violations(req)))
    ensures IsValid(req) ==> r.Success?
    ensures r.Success? ==>
      && r.value.0.posts == s.posts[id := Post(id, author, req.imageUrl.value, req.caption, now)]
      && r.value.0.likes == s.likes
      && r.value.0.comments == s.comments
    ensures r.Success? ==>
      && PostOf(r.value.1) == Post(id, author, req.imageUrl.value, req.caption, now)
      && r.value.1.likesCount == 0 && r.value.1.commentsCount == 0 && !r.value.1.isLiked
    ensures r.Success? && Valid(s) ==> Valid(r.value.0)
  {
    if !IsValid(req) then
      Failure(Invalid(Violations(req)))
    else
      var post := Post(id, author, req.imageUrl.value, req.caption, now);
      Success((s.(posts := s.posts[id := post]), PostResponseFrom(post, author, 0, 0, false)))
  }

  /**
   * getPost: NotFound for an unknown id; otherwise the stored post with the
   * number of likes and of comments on it, and whether the viewer likes it.
   */
  function GetPost(s: Store, postId: Id, viewer: User): (r: Result<PostResponse, Error>)
    ensures postId !in s.posts <==> r == Failure(PostNotFound)
    ensures r.Success? ==>
      && postId in s.posts
      && PostOf(r.value) == s.posts[postId]
      && r.value.likesCount == |set k | k in s.likes && k.postId == postId|
      && r.value.commentsCount == |map id | id in s.comments && s.comments[id].postId == postId :: s.comments[id]|
      && (r.value.isLiked <==> LikeId(viewer.id, postId) in s.likes)
  {
    if postId !in s.posts then
      Failure(PostNotFound)
    else
      var post := s.posts[postId];
      Success(PostResponseFrom(post, post.author, LikesCount(s, postId), CommentsCount(s, postId), IsLiked(s, viewer.id, postId)))
  }

  /**
   * deletePost: NotFound for an unknown id whoever asks, then Forbidden unless
   * the actor wrote the post; otherwise the post row alone is removed.
   */
  function DeletePost(s: Store, postId: Id, actor: User): (r: Result<Store, Error>)
    ensures postId !in s.posts ==> r == Failure(PostNotFound)
    ensures postId in s.posts && s.posts[postId].author.id != actor.id ==> r == Failure(NotYourPost)
    ensures r.Success? <==> postId in s.posts && s.posts[postId].author.id == actor.id
    ensures r.Success? ==>
      && r.value.posts.Keys == s.posts.Keys - {postId}
      && (forall id :: id in r.value.posts ==> r.value.posts[id] == s.posts[id])
      && r.value.likes == s.likes
      && r.value.comments == s.comments
    ensures r.Success? && Valid(s) ==> Valid(r.value)
  {
    if postId !in s.posts then
      Failure(PostNotFound)
    else if s.posts[postId].author.id != actor.id then
      Failure(NotYourPost)
    else
      Success(s.(posts := s.posts - {postId}))
  }

  /**
   * likePost: NotFound for an unknown post, Conflict when the actor already
   * likes it; otherwise exactly the key (actor, post) is added and the post's
   * like count, one higher than before, is returned.
   */
  function LikePost(s: Store, postId: Id, actor: User): (r: Result<(Store, LikeResponse), Error>)
    ensures postId !in s.posts ==> r == Failure(PostNotFound)
    ensures postId in s.posts && LikeId(actor.id, postId) in s.likes ==> r == Failure(AlreadyLiked)
    ensures r.Success? <==> postId in s.posts && LikeId(actor.id, postId) !in s.likes
    ensures r.Success? ==>
      && r.value.0 == s.(likes := s.likes + {LikeId(actor.id, postId)})
      && r.value.1.postId == postId
      && r.value.1.likesCount == LikesCount(s, postId) + 1
      && (forall q :: q != postId ==> LikesCount(r.value.0, q) == LikesCount(s, q))
  {
    if postId !in s.posts then
      Failure(PostNotFound)
    else
      var key := LikeId(actor.id, postId);
      if key in s.likes then
        Failure(AlreadyLiked)
      else
        var s' := s.(likes := s.likes + {key});
        LikesCountAfterAdd(s.likes, key);
        Success((s', LikeResponse(postId, LikesCount(s', postId))))
  }

  /**
   * unlikePost: NotFound ("Post not found") for an unknown post, NotFound
   * ("Like not found") when the actor does not like it; otherwise exactly the
   * key (actor, post) is removed and the like count, one lower, is returned.
   */
  function UnlikePost(s: Store, postId: Id, actor: User): (r: Result<(Store, LikeResponse), Error>)
    ensures postId !in s.posts ==> r == Failure(PostNotFound)
    ensures postId in s.posts && LikeId(actor.id, postId) !in s.likes ==> r == Failure(LikeNotFound)
    ensures r.Success? <==> postId in s.posts && LikeId(actor.id, postId) in s.likes
    ensures r.Success? ==>
      && r.value.0 == s.(likes := s.likes - {LikeId(actor.id, postId)})
      && r.value.1.postId == postId
      && r.value.1.likesCount == LikesCount(s, postId) - 1
      && (forall q :: q != postId ==> LikesCount(r.value.0, q) == LikesCount(s, q))
  {
    if postId !in s.posts then
      Failure(PostNotFound)
    else
      var key := LikeId(actor.id, postId);
      if key !in s.likes then
        Failure(LikeNotFound)
      else
        var s' := s.(likes := s.likes - {key});
        LikesCountAfterRemove(s.likes, key);
        Success((s', LikeResponse(postId, LikesCount(s', postId))))
  }

  /** The feed page that a newest-first listing of the posts yields for `req`. */
  function FeedPage(s: Store, ordered: seq<Id>, req: PageRequest, viewer: User): (r: Page<PostResponse>)
    requires req.size >= 1
    requires IsNewestFirst(ordered, s.posts, PostCreatedAt)
    ensures r.page == req.page && r.totalPages == TotalPages(|s.posts|, req.size)
    ensures |r.content| == |Window(ordered, req.page, req.size)|
    ensures forall i :: 0 <= i < |r.content| ==>
      r.content[i] == ViewOf(s, s.posts[Window(ordered, req.page, req.size)[i]], viewer)
    ensures forall i, j :: 0 <= i < j < |r.content| ==> r.content[i].createdAt >= r.content[j].createdAt
  {
    NewestFirstLength(ordered, s.posts, PostCreatedAt);
    var w := Window(ordered, req.page, req.size);
    WindowIsNewestFirst(ordered, s.posts, PostCreatedAt, req.page, req.size);
    var items := seq(|w|, i requires 0 <= i < |w| => ViewOf(s, s.posts[w[i]], viewer));
    Page(items, req.page, TotalPages(|ordered|, req.size))
  }

  /**
   * getFeed: an illegal page request fails; otherwise the requested page of
   * all posts newest first (equal timestamps in some order), each with its
   * derived values.
   */
  method GetFeed(s: Store, page: int, size: int, viewer: User) returns (r: Result<Page<PostResponse>, Error>)
    ensures PageRequestOf(page, size).Failure? ==> r == Failure(PageRequestOf(page, size).error)
    ensures PageRequestOf(page, size).Success? ==>
      exists ordered :: IsNewestFirst(ordered, s.posts, PostCreatedAt)
        && r == Success(FeedPage(s, ordered, PageRequestOf(page, size).value, viewer))
  {
    var req := PageRequestOf(page, size);
    if req.Failure? {
      return Failure(req.error);
    }
    var ordered := NewestFirst(s.posts, PostCreatedAt);
    r := Success(FeedPage(s, ordered, req.value, viewer));
  }

  // Properties relating several calls.

  /** A post just created reads back, for any viewer, exactly as createPost showed it. */
  lemma CreateThenGet(s: Store, req: CreatePostRequest, author: User, id: Id, now: int, viewer: User)
    requires FreshPostId(s, id)
    requires CreatePost(s, req, author, id, now).Success?
    ensures GetPost(CreatePost(s, req, author, id, now).value.0, id, viewer)
         == Success(CreatePost(s, req, author, id, now).value.1)
  {
    var post := Post(id, author, req.imageUrl.value, req.caption, now);
    var s' := s.(posts := s.posts[id := post]);
    assert CreatePost(s, req, author, id, now) == Success((s', PostResponseFrom(post, author, 0, 0, false)));
    assert LikesCount(s', id) == 0 && CommentsCount(s', id) == 0;
    assert !IsLiked(s', viewer.id, id) by {
      assert LikeId(viewer.id, id) !in LikesOf(s.likes, id);
    }
  }

  /** A post created later than every other post heads every feed listing afterwards. */
  lemma NewestPostHeadsFeed(s: Store, req: CreatePostRequest, author: User, id: Id, now: int, ordered: seq<Id>)
    requires FreshPostId(s, id)
    requires CreatePost(s, req, author, id, now).Success?
    requires forall p :: p in s.posts ==> s.posts[p].createdAt < now
    requires IsNewestFirst(ordered, CreatePost(s, req, author, id, now).value.0.posts, PostCreatedAt)
    ensures |ordered| > 0 && ordered[0] == id
  {
    var posts := CreatePost(s, req, author, id, now).value.0.posts;
    NewestRowComesFirst(ordered, posts, PostCreatedAt, id);
  }

  /** In a store whose rows sit under their own ids, every feed entry is what getPost returns for it. */
  lemma FeedEntriesMatchGetPost(s: Store, ordered: seq<Id>, req: PageRequest, viewer: User)
    requires Valid(s) && req.size >= 1
    requires IsNewestFirst(ordered, s.posts, PostCreatedAt)
    ensures forall i :: 0 <= i < |FeedPage(s, ordered, req, viewer).content| ==>
      GetPost(s, FeedPage(s, ordered, req, viewer).content[i].id, viewer) == Success(FeedPage(s, ordered, req, viewer).content[i])
  {
    var content := FeedPage(s, ordered, req, viewer).content;
    var w := Window(ordered, req.page, req.size);
    WindowIsNewestFirst(ordered, s.posts, PostCreatedAt, req.page, req.size);
    forall i | 0 <= i < |content|
      ensures GetPost(s, content[i].id, viewer) == Success(content[i])
    {
      var id := w[i];
      assert content[i] == ViewOf(s, s.posts[id], viewer);
      assert s.posts[id].id == id;
    }
  }

  /** Reading every feed page of one listing in order shows each post exactly once, newest first. */
  lemma FeedPagesListEveryPostOnce(s: Store, ordered: seq<Id>, size: nat)
    requires size >= 1
    requires IsNewestFirst(ordered, s.posts, PostCreatedAt)
    ensures Pages(ordered, size, TotalPages(|s.posts|, size)) == ordered
    ensures |ordered| == |s.posts|
  {
    NewestFirstLength(ordered, s.posts, PostCreatedAt);
    PagesCoverAll(ordered, size);
  }

  /**
   * When no two posts share a createdAt, separate getFeed calls cut their pages
   * from the same listing: any two newest-first listings give the same page.
   */
  lemma FeedPagesAgreeAcrossCalls(s: Store, a: seq<Id>, b: seq<Id>, req: PageRequest, viewer: User)
    requires req.size >= 1
    requires IsNewestFirst(a, s.posts, PostCreatedAt) && IsNewestFirst(b, s.posts, PostCreatedAt)
    requires forall x, y :: x in s.posts && y in s.posts && x != y ==> s.posts[x].createdAt != s.posts[y].createdAt
    ensures FeedPage(s, a, req, viewer) == FeedPage(s, b, req, viewer)
  {
    NewestFirstUnique(a, b, s.posts, PostCreatedAt);
  }

  /** After a successful delete the post reads as NotFound for everyone, and every other post reads as before. */
  lemma DeleteThenGet(s: Store, postId: Id, actor: User, other: Id, viewer: User)
    requires DeletePost(s, postId, actor).Success?
    ensures GetPost(DeletePost(s, postId, actor).value, postId, viewer) == Failure(PostNotFound)
    ensures other != postId ==> GetPost(DeletePost(s, postId, actor).value, other, viewer) == GetPost(s, other, viewer)
  {
  }

  /** Only the author can delete: anyone else is refused and the post still reads as before. */
  lemma OnlyAuthorDeletes(s: Store, postId: Id, actor: User, viewer: User)
    requires postId in s.posts && s.posts[postId].author.id != actor.id
    ensures DeletePost(s, postId, actor) == Failure(NotYourPost)
    ensures GetPost(s, postId, viewer).Success?
  {
  }

  /** Liking then unliking the same post restores the store and reports the original count. */
  lemma LikeThenUnlike(s: Store, postId: Id, actor: User)
    requires LikePost(s, postId, actor).Success?
    ensures UnlikePost(LikePost(s, postId, actor).value.0, postId, actor)
         == Success((s, LikeResponse(postId, LikesCount(s, postId))))
  {
    var key := LikeId(actor.id, postId);
    assert s.likes + {key} - {key} == s.likes;
  }

  /** Unliking then liking the same post restores the store and reports the original count. */
  lemma UnlikeThenLike(s: Store, postId: Id, actor: User)
    requires UnlikePost(s, postId, actor).Success?
    ensures LikePost(UnlikePost(s, postId, actor).value.0, postId, actor)
         == Success((s, LikeResponse(postId, LikesCount(s, postId))))
  {
    var key := LikeId(actor.id, postId);
    assert s.likes - {key} + {key} == s.likes;
  }

  /** Liking twice: the second like is a Conflict, and the post keeps the count the first like gave it. */
  lemma SecondLikeConflicts(s: Store, postId: Id, actor: User, viewer: User)
    requires LikePost(s, postId, actor).Success?
    ensures LikePost(LikePost(s, postId, actor).value.0, postId, actor) == Failure(AlreadyLiked)
    ensures GetPost(LikePost(s, postId, actor).value.0, postId, viewer).value.likesCount
         == LikePost(s, postId, actor).value.1.likesCount
  {
  }

  /** A successful like shows up in getPost: one more like, and the actor now likes the post. */
  lemma LikeShowsInGetPost(s: Store, postId: Id, actor: User)
    requires LikePost(s, postId, actor).Success?
    ensures GetPost(LikePost(s, postId, actor).value.0, postId, actor).Success?
    ensures GetPost(LikePost(s, postId, actor).value.0, postId, actor).value.likesCount == GetPost(s, postId, actor).value.likesCount + 1
    ensures GetPost(LikePost(s, postId, actor).value.0, postId, actor).value.isLiked
    ensures !GetPost(s, postId, actor).value.isLiked
  {
  }
}

=== FILE: requests.dfy ===
/**
 * The body of a create-post request and the bean-validation constraints on it:
 * imageUrl is @NotBlank and @Size(max = 500); caption is unconstrained.
 */
module Requests {
  import opened Wrappers

  datatype CreatePostRequest = CreatePostRequest(imageUrl: Option<string>, caption: Option<string>)

  const MaxImageUrlLength: nat := 500

  /** A violated constraint on the request body. */
  datatype Violation = ImageUrlRequired | ImageUrlTooLong

  /**
   * The message each constraint reports: the @NotBlank message for a missing
   * or blank imageUrl, the @Size message for a long one. The two differ, so a
   * message identifies its violation.
   */
  function Message(v: Violation): (r: string)
    ensures r == "Image URL is required" <==> v == ImageUrlRequired
    ensures r == "Image URL must not exceed 500 characters" <==> v == ImageUrlTooLong
  {
    match v
    case ImageUrlRequired => "Image URL is required"
    case ImageUrlTooLong => "Image URL must not exceed 500 characters"
  }

  /** Leading part of Java's String.trim: drops every char at or below U+0020 from the front. */
  function TrimLeading(s: string): (r: string)
    ensures |r| <= |s| && r == s[|s| - |r|..]
    ensures forall i :: 0 <= i < |s| - |r| ==> s[i] <= ' '
    ensures |r| > 0 ==> r[0] > ' '
  {
    if |s| > 0 && s[0] <= ' ' then TrimLeading(s[1..]) else s
  }

  /** Trailing part of Java's String.trim: drops every char at or below U+0020 from the back. */
  function TrimTrailing(s: string): (r: string)
    ensures |r| <= |s| && r == s[..|r|]
    ensures forall i :: |r| <= i < |s| ==> s[i] <= ' '
    ensures |r| > 0 ==> r[|r| - 1] > ' '
  {
    if |s| > 0 && s[|s| - 1] <= ' ' then TrimTrailing(s[..|s| - 1]) else s
  }

  /** Java's String.trim. */
  function Trim(s: string): string {
    TrimTrailing(TrimLeading(s))
  }

  /** @NotBlank's reading of a present string: blank when it trims to nothing. */
  predicate IsBlank(s: string) {
    |Trim(s)| == 0
  }

  /** A string is blank exactly when every one of its chars is at or below U+0020. */
  lemma BlankIffNoVisibleChar(s: string)
    ensures IsBlank(s) <==> forall i :: 0 <= i < |s| ==> s[i] <= ' '
  {
    var t := TrimLeading(s);
    if IsBlank(s) {
      // A non-empty `t` starts with a visible char, which TrimTrailing would keep.
      assert |t| == 0;
    } else {
      var r := Trim(s);
      assert r[0] > ' ';
      assert r[0] == t[0] == s[|s| - |t|];
    }
  }

  /** The UTF-16 code units of one char: two (a surrogate pair) above U+FFFF, else one. */
  function Utf16Units(c: char): nat {
    if c as int > 0xFFFF then 2 else 1
  }

  /**
   * Java's String.length() of a string: its number of UTF-16 code units. It
   * lies between the char count and twice it, and equals the char count
   * exactly when no char lies above U+FFFF.
   */
  function Utf16Length(s: string): (n: nat)
    ensures |s| <= n <= 2 * |s|
    ensures n == |s| <==> forall i :: 0 <= i < |s| ==> s[i] as int <= 0xFFFF
  {
    if |s| == 0 then 0 else Utf16Units(s[0]) + Utf16Length(s[1..])
  }

  /** The constraints `req` violates; the request is accepted when there are none. */
  function Violations(req: CreatePostRequest): set<Violation> {
    // @NotBlank rejects null and blank; @Size accepts null and bounds the length inclusively.
    var notBlank := req.imageUrl.Some? && !IsBlank(req.imageUrl.value);
    var sized := req.imageUrl.None? || Utf16Length(req.imageUrl.value) <= MaxImageUrlLength;
    (if notBlank then {} else {ImageUrlRequired}) + (if sized then {} else {ImageUrlTooLong})
  }

  /** Which constraint a request violates, in terms of its imageUrl's chars and its Java length. */
  lemma ViolationsMeaning(req: CreatePostRequest)
    ensures ImageUrlRequired in Violations(req) <==>
      (req.imageUrl.None? || forall i :: 0 <= i < |req.imageUrl.value| ==> req.imageUrl.value[i] <= ' ')
    ensures ImageUrlTooLong in Violations(req) <==> (req.imageUrl.Some? && Utf16Length(req.imageUrl.value) > MaxImageUrlLength)
  {
    if req.imageUrl.Some? {
      BlankIffNoVisibleChar(req.imageUrl.value);
    }
  }

  /** The messages a rejected request reports, one per violated constraint. */
  function Messages(req: CreatePostRequest): set<string> {
    set v | v in Violations(req) :: Message(v)
  }

  /**
   * "Image URL is required" is reported exactly when imageUrl is null or
   * blank, and the length message exactly when it exceeds 500 UTF-16 code units.
   */
  lemma ReportedMessages(req: CreatePostRequest)
    ensures "Image URL is required" in Messages(req) <==>
      (req.imageUrl.None? || forall i :: 0 <= i < |req.imageUrl.value| ==> req.imageUrl.value[i] <= ' ')
    ensures "Image URL must not exceed 500 characters" in Messages(req) <==>
      (req.imageUrl.Some? && Utf16Length(req.imageUrl.value) > MaxImageUrlLength)
  {
    ViolationsMeaning(req);
    if ImageUrlRequired in Violations(req) {
      assert Message(ImageUrlRequired) in Messages(req);
    }
    if ImageUrlTooLong in Violations(req) {
      assert Message(ImageUrlTooLong) in Messages(req);
    }
  }

  predicate IsValid(req: CreatePostRequest) {
    Violations(req) == {}
  }

  /**
   * A request is accepted exactly when its imageUrl is present, has a char
   * above U+0020 and is at most 500 UTF-16 code units long.
   */
  lemma ValidIff(req: CreatePostRequest)
    ensures IsValid(req) <==>
      && req.imageUrl.Some?
      && (exists i :: 0 <= i < |req.imageUrl.value| && req.imageUrl.value[i] > ' ')
      && Utf16Length(req.imageUrl.value) <= MaxImageUrlLength
  {
    var r := Violations(req);
    ViolationsMeaning(req);
    if IsValid(req) {
      assert ImageUrlRequired !in r;
      assert ImageUrlTooLong !in r;
    } else {
      assert ImageUrlRequired in r || ImageUrlTooLong in r;
    }
  }

  /** The length bound is inclusive: a non-blank imageUrl of exactly 500 code units is accepted, whatever the caption. */
  lemma BoundIsInclusive(url: string, caption: Option<string>)
    requires Utf16Length(url) == MaxImageUrlLength
    requires exists i :: 0 <= i < |url| && url[i] > ' '
    ensures IsValid(CreatePostRequest(Some(url), caption))
  {
    ValidIff(CreatePostRequest(Some(url), caption));
  }

  /**
   * A char above U+FFFF counts twice: 499 'a's followed by U+1F600 are 500
   * chars but 501 code units, and the request is rejected as too long.
   */
  lemma SupplementaryCharCountsTwice(caption: Option<string>)
    ensures Violations(CreatePostRequest(Some(seq(499, _ => 'a') + ['\U{1F600}']), caption)) == {ImageUrlTooLong}
  {
    var url := seq(499, _ => 'a') + ['\U{1F600}'];
    var prefix := seq(499, _ => 'a');
    Utf16LengthAppend(prefix, '\U{1F600}');
    assert url[0] > ' ';
    ViolationsMeaning(CreatePostRequest(Some(url), caption));
  }

  /** Appending one char adds its code units. */
  lemma {:induction false} Utf16LengthAppend(s: string, c: char)
    ensures Utf16Length(s + [c]) == Utf16Length(s) + Utf16Units(c)
    decreases |s|
  {
    if |s| > 0 {
      assert (s + [c])[1..] == s[1..] + [c];
      Utf16LengthAppend(s[1..], c);
    }
  }

  /** The caption takes no part in validation: any value, absent included, leaves the verdict unchanged. */
  lemma CaptionUnconstrained(req: CreatePostRequest, caption: Option<string>)
    ensures Violations(req.(caption := caption)) == Violations(req)
  {
  }
}

=== FILE: responses.dfy ===
/** The records the core hands back to its callers. */
module Responses {
  import opened Wrappers
  import opened Domain

  /** The public face of a user attached to posts and comments. */
  datatype AuthorSummary = AuthorSummary(id: Id, username: string, avatarUrl: Option<string>)

  /** The post view; `likesCount`, `commentsCount` and `isLiked` are derived by the caller. */
  datatype PostResponse = PostResponse(
    id: Id,
    imageUrl: string,
    caption: Option<string>,
    author: AuthorSummary,
    likesCount: nat,
    commentsCount: nat,
    isLiked: bool,
    createdAt: int)

  datatype CommentResponse = CommentResponse(id: Id, text: string, author: AuthorSummary, createdAt: int)

  /** The result of a like or unlike: the post and its like count afterwards. */
  datatype LikeResponse = LikeResponse(postId: Id, likesCount: nat)

  /** AuthorSummary.from: the user's id, username and avatar, each in its own field, so the user reads back. */
  function SummaryOf(u: User): (r: AuthorSummary)
    ensures r.id == u.id && r.username == u.username && r.avatarUrl == u.avatarUrl
    ensures UserOf(r) == u
  {
    AuthorSummary(u.id, u.username, u.avatarUrl)
  }

  /** The user a summary was taken from: the summary keeps every field the model gives a user. */
  function UserOf(a: AuthorSummary): User {
    User(a.id, a.username, a.avatarUrl)
  }

  /** The post a view shows, recovered from the view alone. */
  function PostOf(v: PostResponse): Post {
    Post(v.id, UserOf(v.author), v.imageUrl, v.caption, v.createdAt)
  }

  /**
   * PostResponse.from: the view shows the post's own fields and the summary of
   * `author` unchanged (so the post can be read back from it) and carries the
   * three derived values exactly as passed in.
   */
  function PostResponseFrom(post: Post, author: User, likesCount: nat, commentsCount: nat, isLiked: bool): (r: PostResponse)
    ensures PostOf(r) == post.(author := author)
    ensures r.createdAt == post.createdAt
    ensures r.likesCount == likesCount && r.commentsCount == commentsCount && r.isLiked == isLiked
  {
    PostResponse(post.id, post.imageUrl, post.caption, SummaryOf(author), likesCount, commentsCount, isLiked, post.createdAt)
  }

  /** Two views agree only if they show the same post, author and derived values. */
  lemma PostResponseInjective(p: Post, a: User, l: nat, c: nat, b: bool, p': Post, a': User, l': nat, c': nat, b': bool)
    requires PostResponseFrom(p, a, l, c, b) == PostResponseFrom(p', a', l', c', b')
    ensures p.(author := a) == p'.(author := a') && l == l' && c == c' && b == b'
  {
    assert PostOf(PostResponseFrom(p, a, l, c, b)) == PostOf(PostResponseFrom(p', a', l', c', b'));
  }

  /** CommentResponse.from: the stored comment's id, text and timestamp, with the summary of `author`. */
  function CommentResponseFrom(c: Comment, author: User): (r: CommentResponse)
    ensures UserOf(r.author) == author
    ensures (r.id, r.text, r.createdAt) == (c.id, c.text, c.createdAt)
  {
    CommentResponse(c.id, c.text, SummaryOf(author), c.createdAt)
  }
}

=== FILE: scenarios.dfy ===
/**
 * End-to-end walks through the service, proved for every valid create-post
 * request and every starting store in which the generated ids are fresh.
 */
module Scenarios {
  import opened Wrappers
  import opened Domain
  import opened Requests
  import opened Responses
  import opened Engagement
  import opened PostService

  /** A request with a plain URL and no caption. */
  const PhotoRequest := CreatePostRequest(Some("http://x/1.jpg"), None)

  /** The walks below assume a valid request; this one is, so they are not vacuous. */
  lemma PhotoRequestIsValid()
    ensures IsValid(PhotoRequest)
  {
    var url := PhotoRequest.imageUrl.value;
    assert url[0] > ' ';
    assert Utf16Length(url) <= 2 * |url| == 28;
    ValidIff(PhotoRequest);
  }

  /** Posting a valid request under a fresh id succeeds, adds that post by its author and touches no like or comment. */
  lemma Posted(s: Store, req: CreatePostRequest, id: Id, author: User, now: int)
    requires FreshPostId(s, id) && IsValid(req)
    ensures CreatePost(s, req, author, id, now).Success?
    ensures
      var s1 := CreatePost(s, req, author, id, now).value.0;
      && id in s1.posts && s1.posts[id].author == author
      && s1.likes == s.likes && s1.comments == s.comments
  {
  }

  /**
   * U1 posts A; U2 likes it (count 1, U2 sees it liked); U2's second like is a
   * Conflict; U2 unlikes it (count 0); U1 deletes it; A is then NotFound.
   */
  lemma LikeUnlikeDelete(s: Store, req: CreatePostRequest, a: Id, u1: User, u2: User, now: int, viewer: User)
    requires FreshPostId(s, a) && IsValid(req)
    ensures CreatePost(s, req, u1, a, now).Success?
    ensures
      var s1 := CreatePost(s, req, u1, a, now).value.0;
      && LikePost(s1, a, u2).Success?
      && LikePost(s1, a, u2).value.1 == LikeResponse(a, 1)
      && var s2 := LikePost(s1, a, u2).value.0;
      && GetPost(s2, a, u2).Success? && GetPost(s2, a, u2).value.isLiked
      && LikePost(s2, a, u2) == Failure(AlreadyLiked)
      && UnlikePost(s2, a, u2).Success?
      && UnlikePost(s2, a, u2).value.1 == LikeResponse(a, 0)
      && var s3 := UnlikePost(s2, a, u2).value.0;
      && DeletePost(s3, a, u1).Success?
      && GetPost(DeletePost(s3, a, u1).value, a, viewer) == Failure(PostNotFound)
  {
    Posted(s, req, a, u1, now);
    var s1 := CreatePost(s, req, u1, a, now).value.0;
    assert LikesCount(s1, a) == 0;
    assert LikeId(u2.id, a) !in LikesOf(s.likes, a);
    assert LikePost(s1, a, u2).Success?;
    var s2 := LikePost(s1, a, u2).value.0;
    SecondLikeConflicts(s1, a, u2, u2);
    LikeShowsInGetPost(s1, a, u2);
    LikeThenUnlike(s1, a, u2);
    assert UnlikePost(s2, a, u2).value.0 == s1;
    assert s1.posts[a].author == u1;
    DeleteThenGet(s1, a, u1, a, viewer);
  }
}

=== FILE: wrappers.dfy ===
/** Result and optional-value types shared by the whole model. */
module Wrappers {

  /** A value that may be absent: Java's nullable references. */
  datatype Option<+T> = None | Some(value: T)

  /** The outcome of a service call: a value, or the exception the call throws. */
  datatype Result<+T, +E> = Success(value: T) | Failure(error: E)
}
